=== FILE: README.md ===
# rustdoc-static, modelled in Dafny

rustdoc-static is the static-file frontend of the new rustdoc. It reads the JSON-API
document that the rustdoc backend produces: a primary resource (the crate) and a list of
`included` resources (modules, structs, ...). Each resource has a `type`, a `"::"`-separated
`id`, attributes (among them the raw markdown `docs`) and named relationships to other
resources. For every resource, the frontend writes one HTML page under `<root>/doc2`.

This project models the part of `src/lib.rs` that decides what goes where:

- **Page paths** (`path_for_resource`). A module or crate is `<segments>/index.html`. A
  struct is `<segments but the last>/struct.<last>.html`. Any other kind has no path scheme.
- **Links between pages** (the link block of `generate_context`). The linked page's path is
  diffed against the folder of the linking page, the way `pathdiff::diff_paths` does it,
  and the components are joined with `/`.
- **Page contexts** (`generate_context`, `resource_by_id`, `docs_for_resource`). Each
  relationship becomes a section of `{name, link, docs}` summaries. Ids that are not in
  `included` are skipped and warned about.
- **Writing order** (`render_docs`). The primary resource's page comes first, then one page
  per `included` resource, until a fault stops the run.

Modules:

- `Wrappers`: Option and Result.
- `Strings`: Rust's `split`, `rsplit(..).next()` and `join` on strings.
- `PathDiff`: `diff_paths` and relative-path resolution.
- `JsonApi`: the document's datatypes.
- `Rustdoc`: `src/lib.rs` itself.
- `Tests`: the source's unit test, plus concrete scenarios for links, sections and runs.

Two facts about the code that shape the model:

- The context's top-level `name` is the resource's full id (src/lib.rs:74-77).
- `resource_by_id` is a linear `find` over `included` that returns the first match
  (src/lib.rs:193-197).

Results worth knowing:

- `diff_paths` cannot fail on the paths this renderer builds, because `ResourcePath` yields
  relative paths of normal components only (the `ensures` of `Rustdoc.ResourcePath`); its
  other branches are listed under "Left out".
- Following a link from the linking page's folder always reaches the linked page
  (`Rustdoc.LinkRoundTrip`).
- Two resources with distinct ids never share a page (`Rustdoc.PathDeterminesId`).
- A summary's name is the last `"::"` segment of the related id only when that segment
  has no `':'`. For the id `a:::b`, `split` yields the segments `a` and `:b`, so the struct's
  page is `a/struct.:b.html`, but `rsplit` yields the name `b`: the page and the listed
  name disagree (`Tests.ColonSegmentName`, `Tests.ColonSegmentPage`).

## Model

| member | source | states |
|---|---|---|
| `Strings.JoinSplit` | src/lib.rs:157 | joining the pieces of `split("::")` with `"::"` gives back the id, so distinct ids have distinct segment lists |
| `Strings.SplitJoin` | src/lib.rs:157 | splitting the `"::"`-join of segments that contain no `':'` gives back exactly those segments |
| `Strings.RSplitFirst` | src/lib.rs:101-103 | the first piece of `rsplit("::")` is a suffix of the id, never longer than it; `Strings.RSplitFirstRightmost` says which suffix for every id |
| `Strings.RFindToRightmost` | src/lib.rs:101 | the search from the right finds an occurrence of the separator, and none ends after it; when it finds nothing, there is none |
| `Strings.RSplitFirstRightmost` | src/lib.rs:101-103 | the first piece of `rsplit("::")` starts at the start of the id or right after an occurrence of `"::"`, and no occurrence ends inside it: it is the text after the right-most occurrence, for every id |
| `Strings.Join` | src/lib.rs:114-118 | the joined string begins with the first piece; `Strings.JoinSplit`, `Strings.SplitJoin` and `PathDiff.ComponentsOfJoin` fix it as the inverse of splitting |
| `Strings.RSplitJoin` | src/lib.rs:101-103 | the first piece of `rsplit("::")` of a join is its last segment when that segment has no `':'` |
| `PathDiff.DiffPaths` | src/lib.rs:112-113 | every component of the difference is `".."` or a component of the target path, and there are at most as many as both paths together; the difference itself is fixed by `PathDiff.DiffPathsClosed` |
| `PathDiff.DiffPathsPrefix` | src/lib.rs:112-113 | leading components that the target and the base share do not appear in the difference |
| `PathDiff.DiffPathsClosed` | src/lib.rs:112-113 | for any common leading part `c`, when what follows it in the target `p` and in the base `b` starts differently (or one of them is empty), the difference is one `".."` per component of `b` followed by `p`; this fixes the difference of every pair of paths |
| `PathDiff.Parent` | src/lib.rs:110 | the folder of a page is its path without the last component: a prefix one component shorter, and empty for the empty path; `Rustdoc.PathForResource` uses it for the `path.pop()` at src/lib.rs:169 |
| `PathDiff.DiffPathsRoundTrip` | src/lib.rs:108-119 | resolving `diff_paths(path, base)` against `base` yields `path`, for any target without `".."` |
| `PathDiff.ComponentsOfJoin` | src/lib.rs:114-118 | joining non-empty, slash-free components with `"/"` and reading the link's components back loses nothing |
| `Rustdoc.ResourcePath` | src/lib.rs:156-173 | a path exists exactly for `module`, `crate` and `struct`; any other kind fails with `Unimplemented(kind)`, never a fallback; every component of a path is a normal path component |
| `Rustdoc.PathForResource` | src/lib.rs:156-173 | the push/pop construction of the path yields exactly `ResourcePath`: segments plus `index.html` for a module or crate, segments without the last plus `struct.<last>.html` for a struct |
| `Rustdoc.ItemFile` | src/lib.rs:170 | the file name `<kind>.<name>.html` is six characters longer than kind and name together, and both can be read back from it |
| `Rustdoc.FileInitial` | src/lib.rs:160-170 | a module or crate page's file name starts with `i`, a struct page's with `s`, so the two schemes never produce the same file |
| `Rustdoc.SegmentsOfPath` | src/lib.rs:157-171 | the id's segments can be read back from the page path: the folders for a module or crate; the folders plus the name inside `struct.<name>.html` for a struct |
| `Rustdoc.PathDeterminesId` | src/lib.rs:156-173 | two resources with the same page path have the same id, so unique ids never collide on disk |
| `Strings.Split` | src/lib.rs:157 | `split("::")` always yields at least one piece; `Strings.SplitLeftmost` fixes its pieces for every id, and `Strings.JoinSplit` and `Strings.SplitJoin` (for segments without `':'`) read them back |
| `Strings.FindFromLeftmost` | src/lib.rs:157 | the search from the left finds an occurrence of the separator, and none starts before it; when it finds nothing, there is none |
| `Strings.SplitLeftmost` | src/lib.rs:157 | `split("::")` cuts at the left-most occurrence: no occurrence starts inside the first piece; one piece is the whole id; otherwise an occurrence follows the first piece and the other pieces are the split of the rest, for every id |
| `Rustdoc.Segments` | src/lib.rs:157 | an id has at least one segment; the segments are those of `Strings.Split`, so `Strings.JoinSplit` and `Strings.SplitJoin` read them back |
| `Rustdoc.Name` | src/lib.rs:101-103 | the name is a suffix of the id, never longer than it; `Strings.RSplitFirstRightmost` says which suffix for every id, and `Rustdoc.NameIsLastSegment` that it is the last segment when that segment has no `':'` |
| `Rustdoc.Link` | src/lib.rs:105-119 | the link is the `/`-join of `diff_paths(target page, folder of the linking page)`; `Rustdoc.LinkRoundTrip` states that it leads to the target |
| `Rustdoc.SummaryOf` | src/lib.rs:121-125 | a summary holds the target's name, the link to it and its docs; `Rustdoc.SummariesOfOne` places it in the section |
| `Rustdoc.FirstMatch` | src/lib.rs:195 | the index returned is that of the first resource with the id, or the length when none has it |
| `Rustdoc.ResourceById` | src/lib.rs:193-197 | what is found has the id looked up; `Rustdoc.ResourceByIdFinds` states when something is found and which resource it is |
| `Rustdoc.ResourceByIdFinds` | src/lib.rs:193-197 | a resource is found exactly when `included` is present and holds one with that id; what is found has that id and is the first such resource in `included` |
| `Rustdoc.DocsForResource` | src/lib.rs:176-190 | no docs without a `docs` attribute; docs exactly when the rendered HTML is non-empty, and then they are that HTML |
| `Rustdoc.NameIsLastSegment` | src/lib.rs:101-103 | a summary's name is the last `"::"` segment of the related id, when that segment has no `':'` |
| `Rustdoc.LinkRoundTrip` | src/lib.rs:105-119 | following the link's `/`-separated components, `".."` included, from the folder of the linking page reaches exactly the linked resource's page |
| `Rustdoc.Summaries` | src/lib.rs:95-135 | a section never has more summaries than the relationship has target ids |
| `Rustdoc.Dangling` | src/lib.rs:128-132 | there are never more warnings than target ids |
| `Rustdoc.DanglingExactly` | src/lib.rs:128-132 | an id is warned about exactly when it is a target id that `resource_by_id` does not find |
| `Rustdoc.Entry` | src/lib.rs:97-133 | one target id contributes at most one summary; `Rustdoc.SummariesOfOne` says which |
| `Rustdoc.FlatMap` | src/lib.rs:95-135 | `flat_map(..).collect()` over a single id is that id's part; `Rustdoc.FlatMapAppend` extends this to every list of ids |
| `Rustdoc.FlatMapAppend` | src/lib.rs:95-135 | `flat_map` over a concatenation of ids is the concatenation of the two results, and is defined on it wherever it is defined on the parts |
| `Rustdoc.FlatMapAtMostOne` | src/lib.rs:95-135 | when every id contributes at most one element, the collected result has at most as many elements as ids |
| `Rustdoc.SummariesAppend` | src/lib.rs:95-135 | the section of a concatenation of target ids is the concatenation of the parts' sections, so the targets' relative order is kept |
| `Rustdoc.DanglingAppend` | src/lib.rs:128-132 | the warnings for a concatenation of target ids are the parts' warnings, in order |
| `Rustdoc.WarningsOver` | src/lib.rs:89-142 | the warnings of a whole context: each relationship's dangling ids, one relationship after the other; `Rustdoc.WarningsOverMembers` states which ids occur |
| `Rustdoc.WarningsOverMembers` | src/lib.rs:128-132 | an id is warned about exactly when one of the visited relationships has it as a dangling target |
| `Rustdoc.WarningsOverAll` | src/lib.rs:89-142 | once every relationship name is visited, the warnings are exactly the dangling targets of all relationships, whatever the visiting order |
| `Rustdoc.SummariesCount` | src/lib.rs:95-135 | every target id is either summarized or warned about: the two counts add up to the number of ids |
| `Rustdoc.SummariesOfOne` | src/lib.rs:97-133 | a single found target contributes exactly its `{name, link, docs}` summary; a missing one contributes nothing |
| `Rustdoc.GenerateContext` | src/lib.rs:73-153 | the context's `type` is the kind and its `name` is the full id; `docs` is present exactly when `docs_for_resource` gives some; `sections` is present exactly when relationships are, with one entry per relationship name, even an empty one, holding that relationship's summaries; the relationship names are visited once each, in some order `keyOrder`, and the warnings are exactly the concatenation of each relationship's dangling ids in that order, so their number and order are fixed by it; an id is warned about exactly when it is dangling in some relationship |
| `Rustdoc.RenderOrder` | src/lib.rs:43-47 | the primary resource comes first, then every `included` resource in its own order, and nothing else; `Rustdoc.RenderDocs` writes pages in this order |
| `Rustdoc.RenderDocs` | src/lib.rs:28-50 | pages are written in order, primary first, each at `<root>/doc2/<path>`; the run completes exactly when `included` is present and every kind has a path scheme; otherwise it stops at the first resource without one, or after the primary page when `included` is absent |
| `Tests.ModulePathVector` | src/lib.rs:205-216 | `test_crate::test_module` (module) is `test_crate/test_module/index.html` |
| `Tests.StructPathVector` | src/lib.rs:218-227 | `test_crate::TestStruct` (struct) is `test_crate/struct.TestStruct.html` |
| `Tests.ModuleToStructLink` | src/lib.rs:100-119 | the page of module `test_crate::test_module` links to its struct `TestStruct` as `struct.TestStruct.html`, under the name `TestStruct` |
| `Tests.StructToCrateLink` | src/lib.rs:108-119 | the page of struct `test_crate::test_module::TestStruct` links to crate `test_crate` as `../index.html` |
| `Tests.StructItem` | src/lib.rs:97-127 | an included struct without docs, related to the module page, is summarized as `TestStruct`, linked as `struct.TestStruct.html`, with no docs, and not warned about |
| `Tests.MissingItem` | src/lib.rs:97-133 | a target id that is not included yields no summary and one warning naming it |
| `Tests.ColonSegmentName` | src/lib.rs:101-103 | for the id `a:::b`, the segments are `a` and `:b`, but the name is `b` |
| `Tests.StructPageOf` | src/lib.rs:160-171 | a struct with a valid id has the page `struct.<last segment>.html` in the folder of its other segments |
| `Tests.ColonSegmentPage` | src/lib.rs:160-171 | a struct whose segments are `a` and `:b` has the page `a/struct.:b.html` |
| `Tests.ItemsSection` | src/lib.rs:89-142 | an `items` relationship naming an included struct and a missing id yields one summary for the struct and one warning for the missing id |

## Left out

- Directory creation, file creation and writes (src/lib.rs:35, 61-62, 67) are I/O. `RenderDocs` returns the list of page paths it would write, in order.
- Template registration and rendering (src/lib.rs:29-32, 66) belong to handlebars, a foreign library. The `Context` datatype stands for the JSON value the template receives.
- Markdown-to-HTML conversion (src/lib.rs:180-182) belongs to pulldown_cmark. It is the parameter `md: string -> string`, and only the emptiness check on its output is modelled.
- `info!` and `warn!` logging (src/lib.rs:64, 129-131) are not modelled as output. The warned-about ids are returned instead.
- serde_json's dynamic `Value` is replaced by the `Context` and `Summary` datatypes. A summary's `docs` is an `Option`, which stands for JSON `null` when there are no docs.
- The iteration order of the `relationships` HashMap is not modelled: sections are a `map`.
- Rustdoc.GenerateContext: the order in which relationship names are visited is any order that visits each once (the ghost result `keyOrder`), not the one a `HashMap` happens to produce.
- Panics are preconditions: primary data that is not a single resource (src/lib.rs:38-41), relationship data that is not `Multiple` (src/lib.rs:90-93), a `docs` attribute that is not a string (src/lib.rs:179), and an unsupported kind met while linking inside `generate_context` (src/lib.rs:109, 111).
- Rustdoc.RenderDocs: models the path derivation of each `write_doc` call, not the context generation after it. A panic in `generate_context` while writing a page is therefore not one of the modelled faults.
- Rustdoc.RenderDocs: requires every resource's id to be valid, including resources after the one that stops the run.
- `PathBuf` quirks are excluded by the precondition `ValidId`: every id segment is non-empty, has no `/`, and is neither `.` nor `..`. Under it, collecting, pushing and popping are plain sequence operations.
- `pathdiff::diff_paths` is modelled only for two relative paths of normal components. Its branches for absolute paths, `.` and `..` in the base cannot arise here.
- `unwrap_or_else(|| id)` at src/lib.rs:101-103 is unreachable, because `rsplit` always yields a piece. It is not modelled.
- Link resolution drops empty pieces as `Path::components` does. It treats `..` at the top of the tree as staying at the top. Neither case occurs for the links built here.

=== FILE: jsonapi.dfy ===
/**
 * The JSON-API document the rustdoc backend produces, reduced to the shapes
 * the renderer reads. Attribute values that are not strings are kept only as
 * "not a string", which is all the renderer can tell of them.
 */
module JsonApi {
  import opened Wrappers

  /** A JSON attribute value: a string, or anything else. */
  datatype AttrValue = Text(text: string) | NotText

  /** A `{ type, id }` pointer to another resource. */
  datatype ResourceIdentifier = ResourceIdentifier(kind: string, id: string)

  /** The `data` member of a relationship. */
  datatype IdentifierData =
    | NoIdentifiers
    | Single(identifier: ResourceIdentifier)
    | Multiple(identifiers: seq<ResourceIdentifier>)

  datatype Relationship = Relationship(data: IdentifierData)

  /** One documented item: `kind` is the JSON-API `type` ("crate", "module",
      "struct", ...), `id` its "::"-separated path. */
  datatype Resource = Resource(
    kind: string,
    id: string,
    attributes: map<string, AttrValue>,
    relationships: Option<map<string, Relationship>>)

  datatype PrimaryData = SingleResource(resource: Resource) | ManyResources(resources: seq<Resource>)

  /** The whole document: the primary data (the crate) and the `included`
      resources, in document order. */
  datatype Document = Document(data: Option<PrimaryData>, included: Option<seq<Resource>>)
}

=== FILE: pathdiff.dfy ===
/**
 * Relative paths between two relative file-system paths, as the `pathdiff`
 * crate's `diff_paths` computes them, and the resolution of a relative path
 * against a base folder that undoes it. A path is the sequence of its
 * components.
 */
module PathDiff {
  import opened Strings

  type Path = seq<string>

  const ParentDir := ".."

  /** A component that `Path::components` yields as `Component::Normal`:
      non-empty, free of the separator, and neither "." nor "..". */
  predicate Normal(c: string)
  {
    c != "" && '/' !in c && c != "." && c != ParentDir
  }

  /** A non-empty, separator-free piece of a `/`-joined path. */
  predicate Piece(c: string)
  {
    c != "" && '/' !in c
  }

  /** `Path::parent`: all components but the last, so a prefix of the path
      one component shorter (the empty path stays empty). */
  function Parent(p: Path): (folder: Path)
    ensures folder <= p && |folder| == if p == [] then 0 else |p| - 1
  {
    if p == [] then [] else p[..|p| - 1]
  }

  /** `n` parent-directory markers. */
  function Ups(n: nat): (ups: Path)
    ensures |ups| == n && forall i :: 0 <= i < n ==> ups[i] == ParentDir
  {
    if n == 0 then [] else [ParentDir] + Ups(n - 1)
  }

  /** `diff_paths(path, base)` for two relative paths of normal components:
      skip the common leading components, climb out of what is left of
      `base`, then descend into what is left of `path`. */
  function DiffPaths(path: Path, base: Path): (rel: Path)
    ensures forall i :: 0 <= i < |rel| ==> rel[i] == ParentDir || rel[i] in path
    ensures |rel| <= |path| + |base|
  {
    if path == [] then Ups(|base|)
    else if base == [] then path
    else if path[0] == base[0] then
      var rel := DiffPaths(path[1..], base[1..]);
      assert forall c :: c in path[1..] ==> c in path;
      rel
    else Ups(|base|) + path
  }

  /** Common leading components do not show in the difference. */
  lemma {:induction false} DiffPathsPrefix(c: Path, path: Path, base: Path)
    ensures DiffPaths(c + path, c + base) == DiffPaths(path, base)
    decreases |c|
  {
    if c == [] {
      assert c + path == path && c + base == base;
    } else {
      var p, b := c + path, c + base;
      assert p[0] == c[0] == b[0];
      assert p[1..] == c[1..] + path && b[1..] == c[1..] + base;
      DiffPathsPrefix(c[1..], path, base);
    }
  }

  /** The whole rule: after the longest common leading part `c`, one ".."
      per component left in the base `b`, then all that is left of the
      target `p`. */
  lemma DiffPathsClosed(c: Path, p: Path, b: Path)
    requires p == [] || b == [] || p[0] != b[0]
    ensures DiffPaths(c + p, c + b) == Ups(|b|) + p
  {
    DiffPathsPrefix(c, p, b);
    if p == [] {
      assert Ups(|b|) + p == Ups(|b|);
    } else if b == [] {
      assert Ups(|b|) + p == p;
    }
  }

  /** Applies the components of a relative path to a base folder: ".." steps
      out of the current folder, anything else steps into it. */
  function Resolve(base: Path, rel: Path): (target: Path)
    decreases |rel|
  {
    if rel == [] then base
    else if rel[0] == ParentDir then Resolve(Parent(base), rel[1..])
    else Resolve(base + [rel[0]], rel[1..])
  }

  /** The components of a `/`-separated relative link; empty pieces (from
      "a//b" or from the empty link) are dropped as `Path::components` does. */
  function Components(link: string): (comps: Path)
  {
    NonEmpty(Split(link, "/"))
  }

  function NonEmpty(pieces: seq<string>): (r: seq<string>)
  {
    if pieces == [] then []
    else if pieces[0] == "" then NonEmpty(pieces[1..])
    else [pieces[0]] + NonEmpty(pieces[1..])
  }

  /** Climbing out of `b` with one ".." per component lands back at `c`. */
  lemma {:induction false} ResolveUps(c: Path, b: Path, q: Path)
    ensures Resolve(c + b, Ups(|b|) + q) == Resolve(c, q)
    decreases |b|
  {
    if b != [] {
      var b' := b[..|b| - 1];
      assert Parent(c + b) == c + b';
      assert (Ups(|b|) + q)[1..] == Ups(|b'|) + q;
      ResolveUps(c, b', q);
    } else {
      assert c + b == c && Ups(0) + q == q;
    }
  }

  /** Without "..", resolving simply appends. */
  lemma {:induction false} ResolveDescend(c: Path, q: Path)
    requires forall i :: 0 <= i < |q| ==> q[i] != ParentDir
    ensures Resolve(c, q) == c + q
    decreases |q|
  {
    if q != [] {
      ResolveDescend(c + [q[0]], q[1..]);
      assert c + [q[0]] + q[1..] == c + q;
    }
  }

  /** The round trip of `diff_paths`: resolving the difference against any
      folder that ends in `base` lands on the same folder followed by `path`. */
  lemma {:induction false} DiffThenResolve(c: Path, path: Path, base: Path)
    requires forall i :: 0 <= i < |path| ==> path[i] != ParentDir
    ensures Resolve(c + base, DiffPaths(path, base)) == c + path
    decreases |path|
  {
    if path == [] {
      ResolveUps(c, base, []);
      assert Ups(|base|) + [] == Ups(|base|);
      assert c + path == c;
    } else if base == [] {
      ResolveDescend(c, path);
      assert c + base == c;
    } else if path[0] == base[0] {
      var c' := c + [base[0]];
      DiffThenResolve(c', path[1..], base[1..]);
      assert c' + base[1..] == c + base;
      assert c' + path[1..] == c + path;
    } else {
      ResolveUps(c, base, path);
      ResolveDescend(c, path);
    }
  }

  /** `DiffPaths(path, base)` leads from `base` to `path`. */
  lemma DiffPathsRoundTrip(path: Path, base: Path)
    requires forall i :: 0 <= i < |path| ==> path[i] != ParentDir
    ensures Resolve(base, DiffPaths(path, base)) == path
  {
    DiffThenResolve([], path, base);
    assert [] + base == base && [] + path == path;
  }

  lemma {:induction false} NonEmptyOfPieces(pieces: seq<string>)
    requires forall i :: 0 <= i < |pieces| ==> pieces[i] != ""
    ensures NonEmpty(pieces) == pieces
    decreases |pieces|
  {
    if pieces != [] {
      NonEmptyOfPieces(pieces[1..]);
      assert [pieces[0]] + pieces[1..] == pieces;
    }
  }

  /** Joining pieces with "/" and taking the link's components apart again
      gives back the pieces; the empty list joins to the empty link, which has
      no components. */
  lemma ComponentsOfJoin(pieces: seq<string>)
    requires forall i :: 0 <= i < |pieces| ==> Piece(pieces[i])
    ensures Components(Join(pieces, "/")) == pieces
  {
    if pieces == [] {
      assert Split("", "/") == [""];
    } else {
      SplitJoin(pieces, "/");
      NonEmptyOfPieces(pieces);
    }
  }
}

=== FILE: rustdoc.dfy ===
/**
 * The static-file frontend: where each resource's page goes, how pages link
 * to each other, the context a page is rendered from, and the order in which
 * pages are written.
 */
module Rustdoc {
  import opened Wrappers
  import opened Strings
  import opened PathDiff
  import opened JsonApi

  /** The separator of the segments of a resource id. */
  const IdSeparator := "::"
  /** The folder under the output root that holds the rendered tree. */
  const DocDir := "doc2"
  /** The page of a module or crate inside its own folder. */
  const IndexFile := "index.html"
  /** The attribute holding a resource's raw markdown documentation. */
  const DocsKey := "docs"

  /** Why a run stops: a resource kind without a path scheme, or a document
      without `included` resources. */
  datatype Fault = Unimplemented(kind: string) | MissingIncluded

  /** The id's "::"-separated segments. */
  function Segments(id: string): (segs: seq<string>)
    ensures |segs| >= 1
  {
    Split(id, IdSeparator)
  }

  /** Every segment is a plain path component, so collecting the segments
      into a `PathBuf` gives exactly one folder level per segment. */
  predicate ValidId(id: string)
  {
    forall i :: 0 <= i < |Segments(id)| ==> Normal(Segments(id)[i])
  }

  predicate IsContainer(kind: string)
  {
    kind == "module" || kind == "crate"
  }

  /** The kinds that have a path scheme. */
  predicate Supported(kind: string)
  {
    IsContainer(kind) || kind == "struct"
  }

  /** The file name of an item page: `<kind>.<name>.html`; the kind and the
      name can be read back from it. */
  function ItemFile(tag: string, name: string): (file: string)
    ensures |file| == |tag| + |name| + 6
    ensures file[..|tag|] == tag && file[|tag| + 1..|tag| + 1 + |name|] == name
  {
    tag + "." + name + ".html"
  }

  /**
   * The page of a resource, relative to the documentation root: a module or
   * crate is the `index.html` inside the folder named by its segments; a
   * struct is `struct.<name>.html` inside the folder of its parent; any other
   * kind has no path.
   */
  function ResourcePath(r: Resource): (p: Result<Path, Fault>)
    requires ValidId(r.id)
    ensures p.Ok? <==> Supported(r.kind)
    ensures p.Err? ==> p.error == Unimplemented(r.kind)
    ensures p.Ok? ==> |p.value| >= 1 && forall i :: 0 <= i < |p.value| ==> Normal(p.value[i])
  {
    var segs := Segments(r.id);
    if IsContainer(r.kind) then
      Ok(segs + [IndexFile])
    else if r.kind == "struct" then
      var file := ItemFile("struct", Last(segs));
      assert Normal(Last(segs));
      Ok(Parent(segs) + [file])
    else
      Err(Unimplemented(r.kind))
  }

  /**
   * `path_for_resource`: collects the segments into a path, then either
   * pushes `index.html`, or replaces the last segment (the item's name) by
   * the item's file name.
   */
  method PathForResource(r: Resource) returns (p: Result<Path, Fault>)
    requires ValidId(r.id)
    ensures p == ResourcePath(r)
  {
    var path := Segments(r.id);
    if IsContainer(r.kind) {
      path := path + [IndexFile];
      return Ok(path);
    }
    if r.kind != "struct" {
      return Err(Unimplemented(r.kind));
    }
    var tag := "struct";
    var itemName := path[|path| - 1];
    path := path[..|path| - 1];
    path := path + [ItemFile(tag, itemName)];
    return Ok(path);
  }

  /** The file name of a page starts with 'i' for a module or crate and
      with 's' for a struct, so the two kinds of page never share a name. */
  lemma FileInitial(r: Resource)
    requires ValidId(r.id) && ResourcePath(r).Ok?
    ensures Last(ResourcePath(r).value)[0] == if IsContainer(r.kind) then 'i' else 's'
  {
    if !IsContainer(r.kind) {
      assert ItemFile("struct", Last(Segments(r.id)))[0] == 's';
    }
  }

  /** The item name inside a `struct.<name>.html` file name. */
  function ItemName(file: string): (name: string)
  {
    if |file| >= 12 then file[7..|file| - 5] else ""
  }

  /** The id's segments can be read back from the page's path. */
  lemma SegmentsOfPath(r: Resource)
    requires ValidId(r.id) && ResourcePath(r).Ok?
    ensures var p := ResourcePath(r).value;
      Segments(r.id) == if IsContainer(r.kind) then Parent(p) else Parent(p) + [ItemName(Last(p))]
  {
    var segs, p := Segments(r.id), ResourcePath(r).value;
    if IsContainer(r.kind) {
      assert Parent(p) == segs;
    } else {
      var x := Last(segs);
      assert ItemName(ItemFile("struct", x)) == x;
      assert Parent(p) == Parent(segs);
      assert segs == Parent(segs) + [x];
    }
  }

  /** Distinct ids never share a page: a page's path determines the id of
      the resource rendered there. */
  lemma PathDeterminesId(a: Resource, b: Resource)
    requires ValidId(a.id) && ValidId(b.id)
    requires ResourcePath(a).Ok? && ResourcePath(b).Ok?
    requires ResourcePath(a).value == ResourcePath(b).value
    ensures a.id == b.id
  {
    FileInitial(a);
    FileInitial(b);
    SegmentsOfPath(a);
    SegmentsOfPath(b);
    JoinSplit(a.id, IdSeparator);
    JoinSplit(b.id, IdSeparator);
  }

  /** The index of the first resource with the given id, or `|rs|`. */
  function FirstMatch(rs: seq<Resource>, id: string): (i: nat)
    ensures i <= |rs|
    ensures forall j :: 0 <= j < i ==> rs[j].id != id
    ensures i < |rs| ==> rs[i].id == id
  {
    if rs == [] then 0
    else if rs[0].id == id then 0
    else 1 + FirstMatch(rs[1..], id)
  }

  /** `resource_by_id`: the first `included` resource with the given id. */
  function ResourceById(doc: Document, id: string): (found: Option<Resource>)
    ensures found.Some? ==> found.value.id == id
  {
    match doc.included
    case None => None
    case Some(included) =>
      var i := FirstMatch(included, id);
      if i < |included| then Some(included[i]) else None
  }

  /** A resource is found exactly when `included` is present and holds one
      with the id; what is found has the id and comes before any other. */
  lemma ResourceByIdFinds(doc: Document, id: string)
    ensures ResourceById(doc, id).Some? <==>
              doc.included.Some? && exists t :: t in doc.included.value && t.id == id
    ensures ResourceById(doc, id).Some? ==> ResourceById(doc, id).value.id == id
    ensures ResourceById(doc, id).Some? ==>
              exists i :: 0 <= i < |doc.included.value| && doc.included.value[i] == ResourceById(doc, id).value
                          && forall j :: 0 <= j < i ==> doc.included.value[j].id != id
  {
  }

  /** The `docs` attribute, when present, must be a string (the source
      aborts otherwise). */
  predicate DocsWellTyped(r: Resource)
  {
    DocsKey in r.attributes ==> r.attributes[DocsKey].Text?
  }

  /**
   * `docs_for_resource`: the resource's markdown documentation rendered to
   * HTML by `md`; nothing when there is no `docs` attribute or when the
   * rendered HTML is empty.
   */
  function DocsForResource(r: Resource, md: string -> string): (docs: Option<string>)
    requires DocsWellTyped(r)
    ensures DocsKey !in r.attributes ==> docs.None?
    ensures docs.Some? ==> docs.value != "" && docs.value == md(r.attributes[DocsKey].text)
    ensures DocsKey in r.attributes && md(r.attributes[DocsKey].text) != "" ==> docs.Some?
  {
    if DocsKey in r.attributes then
      var html := md(r.attributes[DocsKey].text);
      if html != "" then Some(html) else None
    else None
  }

  /** The display name of a resource: `id.rsplit("::").next()`. */
  function Name(id: string): (name: string)
    ensures |name| <= |id| && name == id[|id| - |name|..]
  {
    RSplitFirst(id, IdSeparator)
  }

  /** For ids whose last segment has no ':', the name is that last segment. */
  lemma NameIsLastSegment(id: string)
    requires ':' !in Last(Segments(id))
    ensures Name(id) == Last(Segments(id))
  {
    JoinSplit(id, IdSeparator);
    RSplitJoin(Segments(id), IdSeparator);
  }

  /** A resource whose page can be located. */
  predicate HasPath(r: Resource)
  {
    ValidId(r.id) && Supported(r.kind)
  }

  /**
   * The link from the page of `from` to the page of `to`: the difference
   * between the target's path and the folder that holds the source page,
   * its components joined with "/".
   */
  function Link(from: Resource, to: Resource): (link: string)
    requires HasPath(from) && HasPath(to)
  {
    var parentFolder := Parent(ResourcePath(from).value);
    var childPath := ResourcePath(to).value;
    Join(DiffPaths(childPath, parentFolder), "/")
  }

  /** Following a link from the folder of the linking page reaches exactly
      the linked resource's page. */
  lemma LinkRoundTrip(from: Resource, to: Resource)
    requires HasPath(from) && HasPath(to)
    ensures Resolve(Parent(ResourcePath(from).value), Components(Link(from, to))) == ResourcePath(to).value
  {
    var base := Parent(ResourcePath(from).value);
    var child := ResourcePath(to).value;
    var rel := DiffPaths(child, base);
    forall i | 0 <= i < |rel|
      ensures Piece(rel[i])
    {
      if rel[i] != ParentDir {
        assert rel[i] in child;
      }
    }
    ComponentsOfJoin(rel);
    DiffPathsRoundTrip(child, base);
  }

  /** One related item as a page lists it. */
  datatype Summary = Summary(name: string, link: string, docs: Option<string>)

  /** What the template receives: the resource's kind and full id, its
      documentation when there is some, and its relationship sections when
      it has relationships. */
  datatype Context = Context(
    kind: string,
    name: string,
    docs: Option<string>,
    sections: Option<map<string, seq<Summary>>>)

  /** Looking `id` up and, when it is found, summarizing it from `from` does
      not abort: both pages have a path and the target's docs are a string. */
  predicate Resolvable(doc: Document, from: Resource, id: string)
  {
    match ResourceById(doc, id)
    case None => true
    case Some(t) => HasPath(from) && HasPath(t) && DocsWellTyped(t)
  }

  predicate TargetsResolvable(doc: Document, from: Resource, ids: seq<ResourceIdentifier>)
  {
    forall i :: 0 <= i < |ids| ==> Resolvable(doc, from, ids[i].id)
  }

  /** The summary of related resource `t` on the page of `from`. */
  function SummaryOf(from: Resource, t: Resource, md: string -> string): (summary: Summary)
    requires HasPath(from) && HasPath(t) && DocsWellTyped(t)
  {
    Summary(Name(t.id), Link(from, t), DocsForResource(t, md))
  }

  /** What one target id contributes to its section: the summary of the
      resource found under it, or nothing when it is not found. */
  function Entry(doc: Document, from: Resource, id: ResourceIdentifier, md: string -> string): (entry: seq<Summary>)
    requires Resolvable(doc, from, id.id)
    ensures |entry| <= 1
  {
    match ResourceById(doc, id.id)
    case Some(t) => [SummaryOf(from, t, md)]
    case None => []
  }

  /** `Entry` as the closure that `flat_map` applies to each target id. */
  function EntryOf(doc: Document, from: Resource, md: string -> string): (f: ResourceIdentifier --> seq<Summary>)
    ensures forall id: ResourceIdentifier :: Resolvable(doc, from, id.id) ==> f.requires(id)
    ensures forall id: ResourceIdentifier :: Resolvable(doc, from, id.id) ==> f(id) == Entry(doc, from, id, md)
  {
    (id: ResourceIdentifier) requires Resolvable(doc, from, id.id) => Entry(doc, from, id, md)
  }

  /** `ids.iter().flat_map(f)`, collected: the parts `f` gives for the ids,
      one after the other. A single id gives its own part; `FlatMapAppend`
      gives the rest. */
  function FlatMap<T>(f: ResourceIdentifier --> seq<T>, ids: seq<ResourceIdentifier>): (parts: seq<T>)
    requires forall i :: 0 <= i < |ids| ==> f.requires(ids[i])
    ensures |ids| == 1 ==> parts == f(ids[0])
  {
    if ids == [] then [] else f(ids[0]) + FlatMap(f, ids[1..])
  }

  /** `flat_map` over a concatenation is the concatenation of the parts. */
  lemma {:induction false} FlatMapAppend<T>(f: ResourceIdentifier --> seq<T>, xs: seq<ResourceIdentifier>, ys: seq<ResourceIdentifier>)
    requires forall i :: 0 <= i < |xs| ==> f.requires(xs[i])
    requires forall i :: 0 <= i < |ys| ==> f.requires(ys[i])
    ensures forall i :: 0 <= i < |xs + ys| ==> f.requires((xs + ys)[i])
    ensures FlatMap(f, xs + ys) == FlatMap(f, xs) + FlatMap(f, ys)
    decreases |xs|
  {
    var zs := xs + ys;
    forall i | 0 <= i < |zs|
      ensures f.requires(zs[i])
    {
      if i < |xs| {
        assert zs[i] == xs[i];
      } else {
        assert zs[i] == ys[i - |xs|];
      }
    }
    if xs == [] {
      assert zs == ys;
    } else {
      assert zs[0] == xs[0] && zs[1..] == xs[1..] + ys;
      FlatMapAppend(f, xs[1..], ys);
      var head, tail, rest := f(xs[0]), FlatMap(f, xs[1..]), FlatMap(f, ys);
      assert head + (tail + rest) == (head + tail) + rest;
    }
  }

  /** When every part has at most one element, there are at most as many
      elements as ids. */
  lemma {:induction false} FlatMapAtMostOne<T>(f: ResourceIdentifier --> seq<T>, ids: seq<ResourceIdentifier>)
    requires forall i :: 0 <= i < |ids| ==> f.requires(ids[i]) && |f(ids[i])| <= 1
    ensures |FlatMap(f, ids)| <= |ids|
    decreases |ids|
  {
    if ids != [] {
      FlatMapAtMostOne(f, ids[1..]);
    }
  }

  /** The section for one relationship: a summary for every target id that
      is found in `included`, in the order of the ids; the others are
      skipped. */
  function Summaries(doc: Document, from: Resource, ids: seq<ResourceIdentifier>, md: string -> string): (sums: seq<Summary>)
    requires TargetsResolvable(doc, from, ids)
    ensures |sums| <= |ids|
  {
    var f := EntryOf(doc, from, md);
    FlatMapAtMostOne(f, ids);
    FlatMap(f, ids)
  }

  /** The target ids that are not found, in order: those the renderer warns
      about. */
  function Dangling(doc: Document, ids: seq<ResourceIdentifier>): (missing: seq<string>)
    ensures |missing| <= |ids|
  {
    if ids == [] then []
    else
      var rest := Dangling(doc, ids[1..]);
      if ResourceById(doc, ids[0].id).None? then [ids[0].id] + rest else rest
  }

  /** An id is warned about exactly when it is a target id that is not found. */
  lemma {:induction false} DanglingExactly(doc: Document, ids: seq<ResourceIdentifier>, m: string)
    ensures m in Dangling(doc, ids) <==>
              ResourceById(doc, m).None? && exists i :: 0 <= i < |ids| && ids[i].id == m
    decreases |ids|
  {
    if ids != [] {
      DanglingExactly(doc, ids[1..], m);
      if exists i :: 0 <= i < |ids| && ids[i].id == m {
        var i :| 0 <= i < |ids| && ids[i].id == m;
        if i > 0 {
          assert ids[1..][i - 1].id == m;
        }
      }
      if exists i :: 0 <= i < |ids[1..]| && ids[1..][i].id == m {
        var i :| 0 <= i < |ids[1..]| && ids[1..][i].id == m;
        assert ids[i + 1].id == m;
      }
    }
  }

  /** Targets that can be resolved one list at a time can be resolved together. */
  lemma TargetsAppend(doc: Document, from: Resource, xs: seq<ResourceIdentifier>, ys: seq<ResourceIdentifier>)
    requires TargetsResolvable(doc, from, xs) && TargetsResolvable(doc, from, ys)
    ensures TargetsResolvable(doc, from, xs + ys)
  {
    forall i | 0 <= i < |xs + ys|
      ensures Resolvable(doc, from, (xs + ys)[i].id)
    {
      if i >= |xs| {
        assert (xs + ys)[i] == ys[i - |xs|];
      }
    }
  }

  /** Sections are computed id by id: the section of a concatenation is the
      concatenation of the sections, so the targets' order is kept. */
  lemma SummariesAppend(doc: Document, from: Resource, xs: seq<ResourceIdentifier>, ys: seq<ResourceIdentifier>, md: string -> string)
    requires TargetsResolvable(doc, from, xs) && TargetsResolvable(doc, from, ys)
    ensures TargetsResolvable(doc, from, xs + ys)
    ensures Summaries(doc, from, xs + ys, md) == Summaries(doc, from, xs, md) + Summaries(doc, from, ys, md)
  {
    TargetsAppend(doc, from, xs, ys);
    FlatMapAppend(EntryOf(doc, from, md), xs, ys);
  }

  /** One step of the warnings: the first target's, then the rest's. */
  lemma DanglingHead(doc: Document, ids: seq<ResourceIdentifier>)
    requires ids != []
    ensures Dangling(doc, ids) == Dangling(doc, [ids[0]]) + Dangling(doc, ids[1..])
  {
    assert [ids[0]][1..] == [];
  }

  /** The warnings for a concatenation of target ids are the concatenation of
      the warnings, in the same order. */
  lemma {:induction false} DanglingAppend(doc: Document, xs: seq<ResourceIdentifier>, ys: seq<ResourceIdentifier>)
    ensures Dangling(doc, xs + ys) == Dangling(doc, xs) + Dangling(doc, ys)
    decreases |xs|
  {
    if xs == [] {
      assert xs + ys == ys;
    } else {
      var zs := xs + ys;
      assert zs[0] == xs[0] && zs[1..] == xs[1..] + ys;
      DanglingHead(doc, zs);
      DanglingHead(doc, xs);
      DanglingAppend(doc, xs[1..], ys);
      assert [zs[0]] == [xs[0]];
      var head, tail, rest := Dangling(doc, [xs[0]]), Dangling(doc, xs[1..]), Dangling(doc, ys);
      assert head + (tail + rest) == (head + tail) + rest;
    }
  }

  /** Every target id is either summarized or warned about, never both and
      never neither. */
  lemma {:induction false} SummariesCount(doc: Document, from: Resource, ids: seq<ResourceIdentifier>, md: string -> string)
    requires TargetsResolvable(doc, from, ids)
    ensures |Summaries(doc, from, ids, md)| + |Dangling(doc, ids)| == |ids|
    decreases |ids|
  {
    if ids != [] {
      SummariesCount(doc, from, ids[1..], md);
    }
  }

  /** A target that is found contributes exactly its summary. */
  lemma SummariesOfOne(doc: Document, from: Resource, id: ResourceIdentifier, md: string -> string)
    requires Resolvable(doc, from, id.id)
    ensures TargetsResolvable(doc, from, [id])
    ensures Summaries(doc, from, [id], md) ==
      match ResourceById(doc, id.id)
      case Some(t) => [SummaryOf(from, t, md)]
      case None => []
  {
    var f := EntryOf(doc, from, md);
    assert [id][1..] == [];
    assert Summaries(doc, from, [id], md) == f(id) + FlatMap(f, []);
  }

  /** The document and resource shapes `generate_context` needs: a
      string-valued `docs` attribute, several identifiers under every
      relationship, and targets that can be linked to. */
  predicate ContextReady(doc: Document, r: Resource)
  {
    && DocsWellTyped(r)
    && match r.relationships
       case None => true
       case Some(rels) =>
         forall k :: k in rels ==>
           rels[k].data.Multiple? && TargetsResolvable(doc, r, rels[k].data.identifiers)
  }

  /** The warnings for the relationships named by `keys`, visited in that
      order. */
  function WarningsOver(doc: Document, rels: map<string, Relationship>, keys: seq<string>): (warnings: seq<string>)
    requires forall k :: k in keys ==> k in rels && rels[k].data.Multiple?
    decreases |keys|
  {
    if keys == [] then []
    else WarningsOver(doc, rels, keys[..|keys| - 1]) + Dangling(doc, rels[Last(keys)].data.identifiers)
  }

  /** Visiting one more relationship appends its warnings. */
  lemma WarningsOverSnoc(doc: Document, rels: map<string, Relationship>, keys: seq<string>, k: string)
    requires forall k :: k in keys ==> k in rels && rels[k].data.Multiple?
    requires k in rels && rels[k].data.Multiple?
    ensures WarningsOver(doc, rels, keys + [k]) == WarningsOver(doc, rels, keys) + Dangling(doc, rels[k].data.identifiers)
  {
    assert (keys + [k])[..|keys|] == keys;
  }

  /** An id is among the warnings exactly when one of the visited
      relationships has it as a dangling target. */
  lemma {:induction false} WarningsOverMembers(doc: Document, rels: map<string, Relationship>, keys: seq<string>, w: string)
    requires forall k :: k in keys ==> k in rels && rels[k].data.Multiple?
    ensures w in WarningsOver(doc, rels, keys) <==>
              exists k :: k in keys && w in Dangling(doc, rels[k].data.identifiers)
    decreases |keys|
  {
    if keys != [] {
      var init, last := keys[..|keys| - 1], Last(keys);
      assert keys == init + [last];
      WarningsOverMembers(doc, rels, init, w);
    }
  }

  /** Visiting every relationship name, the warnings are exactly the dangling
      targets of all relationships. */
  lemma WarningsOverAll(doc: Document, rels: map<string, Relationship>, keys: seq<string>)
    requires forall k :: k in rels ==> rels[k].data.Multiple?
    requires forall k :: k in keys <==> k in rels
    ensures forall w :: w in WarningsOver(doc, rels, keys) <==>
              exists k :: k in rels && w in Dangling(doc, rels[k].data.identifiers)
  {
    forall w
      ensures w in WarningsOver(doc, rels, keys) <==>
                exists k :: k in rels && w in Dangling(doc, rels[k].data.identifiers)
    {
      WarningsOverMembers(doc, rels, keys, w);
    }
  }

  /**
   * `generate_context`: the kind and id, the documentation when there is
   * some, and, when the resource has relationships, one section per
   * relationship name, empty sections included. Returns as well the target
   * ids the renderer warns about: those of every relationship, one
   * relationship after the other, in the order `keyOrder` in which the
   * relationship names are visited. That order is arbitrary (the source
   * iterates a `HashMap`), but it visits every name exactly once.
   */
  method GenerateContext(doc: Document, r: Resource, md: string -> string)
      returns (context: Context, warnings: seq<string>, ghost keyOrder: seq<string>)
    requires ContextReady(doc, r)
    ensures context.kind == r.kind && context.name == r.id
    ensures context.docs == DocsForResource(r, md)
    ensures context.sections.Some? <==> r.relationships.Some?
    ensures r.relationships.Some? ==> context.sections.value.Keys == r.relationships.value.Keys
    ensures r.relationships.Some? ==> forall k :: k in r.relationships.value ==>
              context.sections.value[k] == Summaries(doc, r, r.relationships.value[k].data.identifiers, md)
    ensures r.relationships.None? ==> warnings == [] && keyOrder == []
    ensures r.relationships.Some? ==>
              && (forall k :: k in keyOrder <==> k in r.relationships.value)
              && (forall i, j :: 0 <= i < j < |keyOrder| ==> keyOrder[i] != keyOrder[j])
              && warnings == WarningsOver(doc, r.relationships.value, keyOrder)
    ensures forall w :: w in warnings <==>
              r.relationships.Some? &&
              (exists k :: k in r.relationships.value && w in Dangling(doc, r.relationships.value[k].data.identifiers))
  {
    var docs := DocsForResource(r, md);
    var sections: Option<map<string, seq<Summary>>> := None;
    warnings := [];
    keyOrder := [];
    if r.relationships.Some? {
      var rels := r.relationships.value;
      var done: map<string, seq<Summary>> := map[];
      var todo := rels.Keys;
      while todo != {}
        invariant todo <= rels.Keys
        invariant done.Keys == rels.Keys - todo
        invariant forall k :: k in done ==> done[k] == Summaries(doc, r, rels[k].data.identifiers, md)
        invariant forall k :: k in keyOrder <==> k in rels && k !in todo
        invariant forall i, j :: 0 <= i < j < |keyOrder| ==> keyOrder[i] != keyOrder[j]
        invariant warnings == WarningsOver(doc, rels, keyOrder)
        decreases todo
      {
        var key :| key in todo;
        var ids := rels[key].data.identifiers;
        done := done[key := Summaries(doc, r, ids, md)];
        WarningsOverSnoc(doc, rels, keyOrder, key);
        warnings := warnings + Dangling(doc, ids);
        keyOrder := keyOrder + [key];
        todo := todo - {key};
      }
      sections := Some(done);
      WarningsOverAll(doc, rels, keyOrder);
    }
    context := Context(r.kind, r.id, docs, sections);
  }

  /** The primary data is a single resource (the source aborts otherwise). */
  predicate HasSinglePrimary(doc: Document)
  {
    doc.data.Some? && doc.data.value.SingleResource?
  }

  /** The resources whose pages are written, in writing order: the primary
      resource, then every `included` resource. */
  function RenderOrder(doc: Document): (order: seq<Resource>)
    requires HasSinglePrimary(doc)
    ensures |order| >= 1 && order[0] == doc.data.value.resource
    ensures |order| == 1 + if doc.included.Some? then |doc.included.value| else 0
    ensures forall i :: 1 <= i < |order| ==> doc.included.Some? && order[i] == doc.included.value[i - 1]
  {
    [doc.data.value.resource] + if doc.included.Some? then doc.included.value else []
  }

  /**
   * `render_docs`, reduced to the pages it writes under `root`: each
   * resource's page, in render order, until a resource has no path scheme or
   * the document turns out to have no `included` resources; the pages
   * written before the fault stay written.
   */
  method RenderDocs(doc: Document, root: Path) returns (written: seq<Path>, fault: Option<Fault>)
    requires HasSinglePrimary(doc)
    requires forall i :: 0 <= i < |RenderOrder(doc)| ==> ValidId(RenderOrder(doc)[i].id)
    ensures |written| <= |RenderOrder(doc)|
    ensures forall i :: 0 <= i < |written| ==>
              ResourcePath(RenderOrder(doc)[i]).Ok? &&
              written[i] == root + [DocDir] + ResourcePath(RenderOrder(doc)[i]).value
    ensures fault.None? <==>
              doc.included.Some? && forall i :: 0 <= i < |RenderOrder(doc)| ==> Supported(RenderOrder(doc)[i].kind)
    ensures fault.None? ==> |written| == |RenderOrder(doc)|
    ensures fault == Some(MissingIncluded) ==> doc.included.None? && |written| == 1
    ensures fault.Some? && fault.value.Unimplemented? ==>
              |written| < |RenderOrder(doc)| &&
              fault.value.kind == RenderOrder(doc)[|written|].kind && !Supported(fault.value.kind)
  {
    ghost var order := RenderOrder(doc);
    var docRoot := root + [DocDir];
    written := [];
    var primary := doc.data.value.resource;
    assert order[0] == primary;
    var path := PathForResource(primary);
    if path.Err? {
      return written, Some(path.error);
    }
    written := [docRoot + path.value];
    if doc.included.None? {
      return written, Some(MissingIncluded);
    }
    var included := doc.included.value;
    assert order == [primary] + included;
    var i := 0;
    while i < |included|
      invariant 0 <= i <= |included|
      invariant |written| == i + 1
      invariant forall j :: 0 <= j < |written| ==>
                  ResourcePath(order[j]).Ok? && written[j] == docRoot + ResourcePath(order[j]).value
    {
      assert order[i + 1] == included[i];
      path := PathForResource(included[i]);
      if path.Err? {
        return written, Some(path.error);
      }
      written := written + [docRoot + path.value];
      i := i + 1;
    }
    fault := None;
  }
}

=== FILE: strings.dfy ===
/**
 * The parts of Rust's `str` API that the renderer relies on:
 * `split(sep)`, `rsplit(sep).next()` and `[..].join(sep)`, on strings as `seq<char>`.
 */
module Strings {
  import opened Wrappers

  /** `sep` occurs in `s` starting at index `i`. */
  predicate OccursAt(s: string, sep: string, i: nat)
  {
    i + |sep| <= |s| && s[i..i + |sep|] == sep
  }

  /** An occurrence of `sep` in `s` ends at index `e`. */
  predicate EndsAt(s: string, sep: string, e: nat)
  {
    |sep| <= e <= |s| && s[e - |sep|..e] == sep
  }

  /** The left-most occurrence of `sep` in `s` that starts at or after `i`. */
  function FindFrom(s: string, sep: string, i: nat): (j: Option<nat>)
    requires |sep| > 0
    ensures j.Some? ==> i <= j.value && j.value + |sep| <= |s|
    decreases |s| - i
  {
    if i + |sep| > |s| then None
    else if OccursAt(s, sep, i) then Some(i)
    else FindFrom(s, sep, i + 1)
  }

  /** `s.split(sep)`: the pieces between non-overlapping occurrences of `sep`,
      found left to right. There is always at least one piece. */
  function Split(s: string, sep: string): (parts: seq<string>)
    requires |sep| > 0
    ensures |parts| >= 1
    decreases |s|
  {
    match FindFrom(s, sep, 0)
    case None => [s]
    case Some(i) => [s[..i]] + Split(s[i + |sep|..], sep)
  }

  /** The right-most occurrence of `sep` in `s` that ends at or before `n`,
      given by its end index. */
  function RFindTo(s: string, sep: string, n: nat): (e: Option<nat>)
    requires |sep| > 0 && n <= |s|
    ensures e.Some? ==> |sep| <= e.value <= n
    decreases n
  {
    if n < |sep| then None
    else if s[n - |sep|..n] == sep then Some(n)
    else RFindTo(s, sep, n - 1)
  }

  /** `s.rsplit(sep).next()`: the text after the right-most occurrence of `sep`,
      or all of `s` when there is none. It is always a suffix of `s`. */
  function RSplitFirst(s: string, sep: string): (tail: string)
    requires |sep| > 0
    ensures |tail| <= |s| && tail == s[|s| - |tail|..]
  {
    match RFindTo(s, sep, |s|)
    case None => s
    case Some(e) => s[e..]
  }

  /** `parts.join(sep)`: the pieces with `sep` between each two; it begins
      with the first piece. */
  function Join(parts: seq<string>, sep: string): (joined: string)
    ensures |parts| > 0 ==> parts[0] <= joined
  {
    if |parts| == 0 then ""
    else if |parts| == 1 then parts[0]
    else parts[0] + sep + Join(parts[1..], sep)
  }

  function Last<T>(xs: seq<T>): (last: T)
    requires |xs| > 0
  {
    xs[|xs| - 1]
  }

  /** What `FindFrom` finds is an occurrence. */
  lemma {:induction false} FindOccurs(s: string, sep: string, i: nat)
    requires |sep| > 0 && FindFrom(s, sep, i).Some?
    ensures OccursAt(s, sep, FindFrom(s, sep, i).value)
    decreases |s| - i
  {
    if !OccursAt(s, sep, i) {
      FindOccurs(s, sep, i + 1);
    }
  }

  /** `FindFrom` finds the left-most occurrence from `i` on: there is none
      before what it finds, and none at all when it finds nothing. */
  lemma {:induction false} FindFromLeftmost(s: string, sep: string, i: nat)
    requires |sep| > 0
    ensures FindFrom(s, sep, i).Some? ==> OccursAt(s, sep, FindFrom(s, sep, i).value)
    ensures forall k: nat :: i <= k && (FindFrom(s, sep, i).None? || k < FindFrom(s, sep, i).value) ==>
              !OccursAt(s, sep, k)
    decreases |s| - i
  {
    if FindFrom(s, sep, i).Some? {
      FindOccurs(s, sep, i);
    }
    if i + |sep| <= |s| && !OccursAt(s, sep, i) {
      FindFromLeftmost(s, sep, i + 1);
    }
  }

  /** `Split` cuts at the left-most occurrence: no occurrence starts inside
      the first piece; with one piece the piece is all of `s`; with more, an
      occurrence follows the first piece and the other pieces are the split
      of what comes after it. This fixes the pieces for every string. */
  lemma SplitLeftmost(s: string, sep: string)
    requires |sep| > 0
    ensures var parts := Split(s, sep);
      (forall k: nat :: k < |parts[0]| ==> !OccursAt(s, sep, k)) &&
      (|parts| == 1 ==> parts[0] == s) &&
      (|parts| > 1 ==> |parts[0]| + |sep| <= |s| && OccursAt(s, sep, |parts[0]|) && parts[0] == s[..|parts[0]|] &&
                       parts[1..] == Split(s[|parts[0]| + |sep|..], sep))
  {
    FindFromLeftmost(s, sep, 0);
  }

  /** Joining a piece in front of at least one more adds one separator. */
  lemma JoinCons(a: string, rest: seq<string>, sep: string)
    requires |rest| > 0
    ensures Join([a] + rest, sep) == a + sep + Join(rest, sep)
  {
    assert ([a] + rest)[1..] == rest;
  }

  /** A string is the text before an occurrence, the occurrence, and the text
      after it. */
  lemma AroundOccurrence(s: string, sep: string, i: nat)
    requires OccursAt(s, sep, i)
    ensures s == s[..i] + sep + s[i + |sep|..]
  {
    assert s == s[..i] + s[i..i + |sep|] + s[i + |sep|..];
  }

  /** Joining the pieces of a split gives back the original string, so
      `Split(_, sep)` is injective. */
  lemma {:induction false} JoinSplit(s: string, sep: string)
    requires |sep| > 0
    ensures Join(Split(s, sep), sep) == s
    decreases |s|
  {
    var found := FindFrom(s, sep, 0);
    if found.Some? {
      var i := found.value;
      var rest := s[i + |sep|..];
      JoinSplit(rest, sep);
      JoinCons(s[..i], Split(rest, sep), sep);
      FindOccurs(s, sep, 0);
      AroundOccurrence(s, sep, i);
    }
  }

  /** No occurrence starts at or after `i` when the separator's first character
      does not appear there. */
  lemma {:induction false} FindNone(s: string, sep: string, i: nat)
    requires |sep| > 0
    requires forall k :: i <= k < |s| ==> s[k] != sep[0]
    ensures FindFrom(s, sep, i) == None
    decreases |s| - i
  {
    if i + |sep| <= |s| {
      assert s[i..i + |sep|][0] == s[i];
      FindNone(s, sep, i + 1);
    }
  }

  /** The occurrence at `j` is the first one found from `i` when the
      separator's first character does not appear between them. */
  lemma {:induction false} FindFirst(s: string, sep: string, i: nat, j: nat)
    requires |sep| > 0 && i <= j && OccursAt(s, sep, j)
    requires forall k :: i <= k < j ==> s[k] != sep[0]
    ensures FindFrom(s, sep, i) == Some(j)
    decreases j - i
  {
    if i < j {
      assert s[i..i + |sep|][0] == s[i];
      FindFirst(s, sep, i + 1, j);
    }
  }

  /** Splitting a join gives back the pieces, provided no piece contains the
      separator's first character. */
  lemma {:induction false} SplitJoin(parts: seq<string>, sep: string)
    requires |sep| > 0 && |parts| > 0
    requires forall i :: 0 <= i < |parts| ==> sep[0] !in parts[i]
    ensures Split(Join(parts, sep), sep) == parts
    decreases |parts|
  {
    var a := parts[0];
    if |parts| == 1 {
      FindNone(a, sep, 0);
    } else {
      var tail := Join(parts[1..], sep);
      SplitJoin(parts[1..], sep);
      var s := a + sep + tail;
      assert parts == [a] + parts[1..];
      JoinCons(a, parts[1..], sep);
      assert forall k :: 0 <= k < |a| ==> s[k] == a[k];
      assert s[|a|..|a| + |sep|] == sep;
      FindFirst(s, sep, 0, |a|);
      assert s[..|a|] == a && s[|a| + |sep|..] == tail;
    }
  }

  /** The right-most occurrence found up to `n` is the one found up to `m` when
      the separator's last character does not appear between them. */
  lemma {:induction false} RFindSkip(s: string, sep: string, m: nat, n: nat)
    requires |sep| > 0 && m <= n <= |s|
    requires forall k :: m <= k < n ==> s[k] != sep[|sep| - 1]
    ensures RFindTo(s, sep, n) == RFindTo(s, sep, m)
    decreases n - m
  {
    if m < n {
      if n >= |sep| {
        assert s[n - |sep|..n][|sep| - 1] == s[n - 1];
      }
      RFindSkip(s, sep, m, n - 1);
    }
  }

  /** Text free of the separator's last character, appended to `p`, holds no
      end of an occurrence. */
  lemma RFindAppend(p: string, l: string, sep: string)
    requires |sep| > 0 && sep[|sep| - 1] !in l
    ensures RFindTo(p + l, sep, |p + l|) == RFindTo(p + l, sep, |p|)
  {
    var s := p + l;
    forall k | |p| <= k < |s|
      ensures s[k] != sep[|sep| - 1]
    {
      assert s[k] == l[k - |p|];
    }
    RFindSkip(s, sep, |p|, |s|);
  }

  /** `RFindTo` finds the right-most occurrence ending by `n`: none ends
      after what it finds, and none at all when it finds nothing. */
  lemma {:induction false} RFindToRightmost(s: string, sep: string, n: nat)
    requires |sep| > 0 && n <= |s|
    ensures RFindTo(s, sep, n).Some? ==> EndsAt(s, sep, RFindTo(s, sep, n).value)
    ensures forall e: nat :: e <= n && (RFindTo(s, sep, n).None? || RFindTo(s, sep, n).value < e) ==>
              !EndsAt(s, sep, e)
    decreases n
  {
    if n >= |sep| && s[n - |sep|..n] != sep {
      RFindToRightmost(s, sep, n - 1);
    }
  }

  /** `RSplitFirst` is the text after the right-most occurrence: it starts at
      the start of `s` or right after an occurrence, and no occurrence ends
      inside it. This fixes the result for every string. */
  lemma RSplitFirstRightmost(s: string, sep: string)
    requires |sep| > 0
    ensures var k := |s| - |RSplitFirst(s, sep)|;
      (k == 0 || EndsAt(s, sep, k)) &&
      forall e: nat :: k < e <= |s| ==> !EndsAt(s, sep, e)
  {
    RFindToRightmost(s, sep, |s|);
  }

  /** `rsplit(sep).next()` of a join is the last piece when that piece does not
      contain the separator's last character. */
  lemma RSplitJoin(parts: seq<string>, sep: string)
    requires |sep| > 0 && |parts| > 0
    requires sep[|sep| - 1] !in Last(parts)
    ensures RSplitFirst(Join(parts, sep), sep) == Last(parts)
  {
    var l := Last(parts);
    if |parts| == 1 {
      RFindSkip(l, sep, 0, |l|);
    } else {
      var p := JoinLast(parts, sep);
      var q := p + sep;
      RFindAppend(q, l, sep);
      assert (q + l)[|q| - |sep|..|q|] == sep;
      assert (q + l)[|q|..] == l;
    }
  }

  /** The join of all pieces but the last, followed by the separator and the
      last piece, is the join of all pieces. */
  lemma {:induction false} JoinLast(parts: seq<string>, sep: string) returns (p: string)
    requires |parts| > 1
    ensures Join(parts, sep) == p + sep + Last(parts)
    decreases |parts|
  {
    if |parts| == 2 {
      p := parts[0];
    } else {
      var q := JoinLast(parts[1..], sep);
      p := parts[0] + sep + q;
    }
  }

}

=== FILE: tests.dfy ===
/**
 * The concrete cases: the two paths of the source's own unit test, the link
 * from a module page to a struct in it, a link that climbs a folder, a
 * section with a dangling target, and two runs of the page writer. The
 * resources are parameters pinned by `requires`, so that the verifier
 * reasons about their ids through the lemmas rather than by unfolding the
 * splitting of literal strings.
 */
module Tests {
  import opened Wrappers
  import opened Strings
  import opened PathDiff
  import opened JsonApi
  import opened Rustdoc

  /** In `a:::b`, `split` takes the left-most `"::"` and `rsplit` the
      right-most one, so the last segment is `:b` (the page becomes
      `a/struct.:b.html`) while the name listed for it is `b`. */
  lemma ColonSegmentName(id: string)
    requires id == "a:::b"
    ensures ValidId(id) && Segments(id) == ["a", ":b"]
    ensures Name(id) == "b"
  {
    assert |id| == 5 && id[0] == 'a' && id[1] == ':' && id[2] == ':' && id[3] == ':' && id[4] == 'b';
    assert id[0..2][0] == 'a';
    assert id[1..3] == IdSeparator;
    assert FindFrom(id, IdSeparator, 0) == Some(1);
    var rest := id[3..];
    assert rest[0..2][1] == 'b';
    assert FindFrom(rest, IdSeparator, 1) == None;
    assert FindFrom(rest, IdSeparator, 0) == None;
    assert Split(rest, IdSeparator) == [rest];
    assert id[1 + |IdSeparator|..] == rest;
    assert Split(id, IdSeparator) == [id[..1]] + Split(rest, IdSeparator);
    assert id[..1] == "a" && rest == ":b";
    assert Normal("a") && Normal(":b");
    assert id[3..5][1] == 'b';
    assert id[2..4] == IdSeparator;
    assert RFindTo(id, IdSeparator, 5) == Some(4);
    assert id[4..] == "b";
  }

  /** The file name of a struct page for the segment `:b`. */
  lemma ColonSegmentFile()
    ensures ItemFile("struct", ":b") == "struct.:b.html"
  {
  }

  /** The page of a struct with that id is named after `:b`. */
  lemma ColonSegmentPage(s: Resource)
    requires s.kind == "struct" && Segments(s.id) == ["a", ":b"]
    ensures HasPath(s) && ResourcePath(s) == Ok(["a", "struct.:b.html"])
  {
    StructPageOf(s, ["a"], ":b");
    ColonSegmentFile();
    assert ["a"] + ["struct.:b.html"] == ["a", "struct.:b.html"];
  }

  /** A struct's page is `struct.<last segment>.html` in the folder of the
      other segments. */
  lemma StructPageOf(s: Resource, folder: seq<string>, name: string)
    requires s.kind == "struct" && ValidId(s.id) && Segments(s.id) == folder + [name]
    ensures HasPath(s) && ResourcePath(s) == Ok(folder + [ItemFile("struct", name)])
  {
    var segs := Segments(s.id);
    assert Last(segs) == name && Parent(segs) == folder;
  }

  /** An id spelled as the join of its segments splits back into them. */
  lemma SegmentsOf(id: string, segs: seq<string>)
    requires |segs| > 0 && forall i :: 0 <= i < |segs| ==> ':' !in segs[i]
    requires id == Join(segs, IdSeparator)
    ensures Segments(id) == segs
  {
    SplitJoin(segs, IdSeparator);
  }

  // The segments of the literal ids used below, and the literal file names
  // of their pages. The lemmas differ only in their literal: each literal
  // gets a lemma of its own so that the solver unfolds the splitting,
  // joining or concatenation of one literal string at a time, which keeps
  // every proof that uses them small and stable.

  lemma CrateId(id: string)
    requires id == "test_crate"
    ensures Segments(id) == ["test_crate"]
  {
    SegmentsOf(id, ["test_crate"]);
  }

  lemma ModuleId(id: string)
    requires id == "test_crate::test_module"
    ensures Segments(id) == ["test_crate", "test_module"]
  {
    SegmentsOf(id, ["test_crate", "test_module"]);
  }

  lemma StructId(id: string)
    requires id == "test_crate::TestStruct"
    ensures Segments(id) == ["test_crate", "TestStruct"]
  {
    SegmentsOf(id, ["test_crate", "TestStruct"]);
  }

  lemma NestedStructJoin()
    ensures Join(["test_crate", "test_module", "TestStruct"], IdSeparator) == "test_crate::test_module::TestStruct"
  {
    assert Join(["test_module", "TestStruct"], IdSeparator) == "test_module::TestStruct";
  }

  lemma NestedStructId(id: string)
    requires id == "test_crate::test_module::TestStruct"
    ensures Segments(id) == ["test_crate", "test_module", "TestStruct"]
  {
    NestedStructJoin();
    SegmentsOf(id, ["test_crate", "test_module", "TestStruct"]);
  }

  // The pages of the resources used below, from their segments. These
  // lemmas never see the literal ids, which keeps the solver from unfolding
  // the splitting of literal strings.

  lemma CratePage(c: Resource)
    requires c.kind == "crate" && Segments(c.id) == ["test_crate"]
    ensures HasPath(c) && ResourcePath(c) == Ok(["test_crate", "index.html"])
  {
    assert Segments(c.id) + [IndexFile] == ["test_crate", "index.html"];
  }

  lemma ModulePage(m: Resource)
    requires m.kind == "module" && Segments(m.id) == ["test_crate", "test_module"]
    ensures HasPath(m) && ResourcePath(m) == Ok(["test_crate", "test_module", "index.html"])
  {
    assert Segments(m.id) + [IndexFile] == ["test_crate", "test_module", "index.html"];
  }

  lemma TestStructFile()
    ensures ItemFile("struct", "TestStruct") == "struct.TestStruct.html"
  {
  }

  lemma StructPage(s: Resource)
    requires s.kind == "struct" && Segments(s.id) == ["test_crate", "TestStruct"]
    ensures HasPath(s) && ResourcePath(s) == Ok(["test_crate", "struct.TestStruct.html"])
  {
    StructPageOf(s, ["test_crate"], "TestStruct");
    TestStructFile();
    assert ["test_crate"] + ["struct.TestStruct.html"] == ["test_crate", "struct.TestStruct.html"];
  }

  lemma NestedStructPage(s: Resource)
    requires s.kind == "struct" && Segments(s.id) == ["test_crate", "test_module", "TestStruct"]
    ensures HasPath(s) && ResourcePath(s) == Ok(["test_crate", "test_module", "struct.TestStruct.html"])
  {
    StructPageOf(s, ["test_crate", "test_module"], "TestStruct");
    TestStructFile();
    assert ["test_crate", "test_module"] + ["struct.TestStruct.html"] == ["test_crate", "test_module", "struct.TestStruct.html"];
  }

  lemma NestedStructName(id: string)
    requires Segments(id) == ["test_crate", "test_module", "TestStruct"]
    ensures Name(id) == "TestStruct"
  {
    assert Last(Segments(id)) == "TestStruct";
    NameIsLastSegment(id);
  }

  /** A link in terms of the two pages' paths. */
  lemma LinkOfPaths(from: Resource, to: Resource, fromPath: Path, toPath: Path)
    requires HasPath(from) && HasPath(to)
    requires ResourcePath(from) == Ok(fromPath) && ResourcePath(to) == Ok(toPath)
    ensures Link(from, to) == Join(DiffPaths(toPath, Parent(fromPath)), "/")
  {
  }

  /** From the folder of the module page into the struct page beside it. */
  lemma DiffIntoFolder()
    ensures DiffPaths(["test_crate", "test_module", "struct.TestStruct.html"], ["test_crate", "test_module"])
            == ["struct.TestStruct.html"]
  {
    var child := ["test_crate", "test_module", "struct.TestStruct.html"];
    var base := ["test_crate", "test_module"];
    assert child[1..] == ["test_module", "struct.TestStruct.html"] && base[1..] == ["test_module"];
    assert child[1..][1..] == ["struct.TestStruct.html"] && base[1..][1..] == [];
  }

  /** From the folder of the nested struct page up to the crate page. */
  lemma DiffUpOneFolder()
    ensures DiffPaths(["test_crate", "index.html"], ["test_crate", "test_module"]) == ["..", "index.html"]
  {
    var child := ["test_crate", "index.html"];
    var base := ["test_crate", "test_module"];
    assert child[1..] == ["index.html"] && base[1..] == ["test_module"];
    assert "index.html" != "test_module";
    assert Ups(1) + ["index.html"] == ["..", "index.html"];
  }

  lemma UpOneFolderLink()
    ensures Join(DiffPaths(["test_crate", "index.html"],
                           Parent(["test_crate", "test_module", "struct.TestStruct.html"])), "/")
            == "../index.html"
  {
    assert Parent(["test_crate", "test_module", "struct.TestStruct.html"]) == ["test_crate", "test_module"];
    DiffUpOneFolder();
    assert Join(["..", "index.html"], "/") == "../index.html";
  }

  /** `test_crate::test_module` (a module) is `test_crate/test_module/index.html`,
      as the source's unit test expects. */
  lemma ModulePathVector(m: Resource)
    requires m.kind == "module" && m.id == "test_crate::test_module"
    ensures ValidId(m.id)
    ensures ResourcePath(m) == Ok(["test_crate", "test_module", "index.html"])
  {
    ModuleId(m.id);
    ModulePage(m);
  }

  /** `test_crate::TestStruct` (a struct) is `test_crate/struct.TestStruct.html`,
      as the source's unit test expects. */
  lemma StructPathVector(s: Resource)
    requires s.kind == "struct" && s.id == "test_crate::TestStruct"
    ensures ValidId(s.id)
    ensures ResourcePath(s) == Ok(["test_crate", "struct.TestStruct.html"])
  {
    StructId(s.id);
    StructPage(s);
  }

  /** The module page links to the struct inside it without leaving its
      folder, and the struct is listed under its last segment. */
  lemma ModuleToNestedStruct(m: Resource, s: Resource)
    requires m.kind == "module" && Segments(m.id) == ["test_crate", "test_module"]
    requires s.kind == "struct" && Segments(s.id) == ["test_crate", "test_module", "TestStruct"]
    ensures HasPath(m) && HasPath(s)
    ensures Link(m, s) == "struct.TestStruct.html"
    ensures Name(s.id) == "TestStruct"
  {
    ModulePage(m);
    NestedStructPage(s);
    NestedStructName(s.id);
    DiffIntoFolder();
    assert Parent(["test_crate", "test_module", "index.html"]) == ["test_crate", "test_module"];
  }

  /** The same link, from the ids as written. */
  lemma ModuleToStructLink(m: Resource, s: Resource)
    requires m.kind == "module" && m.id == "test_crate::test_module"
    requires s.kind == "struct" && s.id == "test_crate::test_module::TestStruct"
    ensures HasPath(m) && HasPath(s)
    ensures Link(m, s) == "struct.TestStruct.html"
    ensures Name(s.id) == "TestStruct"
  {
    ModuleId(m.id);
    NestedStructId(s.id);
    ModuleToNestedStruct(m, s);
  }

  /** A struct page links to its crate's page one folder up. */
  lemma StructToCrateLink(s: Resource, c: Resource)
    requires s.kind == "struct" && s.id == "test_crate::test_module::TestStruct"
    requires c.kind == "crate" && c.id == "test_crate"
    ensures HasPath(s) && HasPath(c)
    ensures Link(s, c) == "../index.html"
  {
    NestedStructId(s.id);
    CrateId(c.id);
    NestedStructPage(s);
    CratePage(c);
    LinkOfPaths(s, c, ["test_crate", "test_module", "struct.TestStruct.html"], ["test_crate", "index.html"]);
    UpOneFolderLink();
  }

  lemma MissingIsNotTheStruct(a: string, b: string)
    requires a == "test_crate::test_module::TestStruct"
    requires b == "test_crate::test_module::Missing"
    ensures a != b
  {
    assert a[25] != b[25];
  }

  /** An included struct without docs, as a target on the module page. */
  lemma StructItem(doc: Document, m: Resource, s: Resource, t: ResourceIdentifier, md: string -> string)
    requires m.kind == "module" && Segments(m.id) == ["test_crate", "test_module"]
    requires s.kind == "struct" && Segments(s.id) == ["test_crate", "test_module", "TestStruct"]
    requires s.attributes == map[] && doc.included == Some([s]) && t.id == s.id
    ensures TargetsResolvable(doc, m, [t])
    ensures Summaries(doc, m, [t], md) == [Summary("TestStruct", "struct.TestStruct.html", None)]
    ensures Dangling(doc, [t]) == []
  {
    assert FirstMatch([s], t.id) == 0;
    ModuleToNestedStruct(m, s);
    assert DocsForResource(s, md) == None;
    SummariesOfOne(doc, m, t, md);
  }

  /** A target that is not included. */
  lemma MissingItem(doc: Document, m: Resource, s: Resource, t: ResourceIdentifier, md: string -> string)
    requires doc.included == Some([s]) && t.id != s.id
    ensures TargetsResolvable(doc, m, [t])
    ensures Summaries(doc, m, [t], md) == []
    ensures Dangling(doc, [t]) == [t.id]
  {
    assert FirstMatch([s], t.id) == 1;
    SummariesOfOne(doc, m, t, md);
  }

  /** The "items" section of `test_crate::test_module`, whose relationship
      names the struct inside it (included, without docs) and a missing
      item, holds the struct's summary only; the missing id is warned about. */
  lemma ItemsSection(doc: Document, m: Resource, s: Resource, items: seq<ResourceIdentifier>, md: string -> string)
    requires m.kind == "module" && m.id == "test_crate::test_module"
    requires s.kind == "struct" && s.id == "test_crate::test_module::TestStruct"
    requires s.attributes == map[]
    requires doc.included == Some([s])
    requires items == [ResourceIdentifier("struct", "test_crate::test_module::TestStruct"),
                       ResourceIdentifier("struct", "test_crate::test_module::Missing")]
    ensures TargetsResolvable(doc, m, items)
    ensures Summaries(doc, m, items, md) == [Summary("TestStruct", "struct.TestStruct.html", None)]
    ensures Dangling(doc, items) == ["test_crate::test_module::Missing"]
  {
    ModuleId(m.id);
    NestedStructId(s.id);
    MissingIsNotTheStruct(s.id, items[1].id);
    StructItem(doc, m, s, items[0], md);
    MissingItem(doc, m, s, items[1], md);
    SummariesAppend(doc, m, [items[0]], [items[1]], md);
    DanglingAppend(doc, [items[0]], [items[1]]);
    assert [items[0]] + [items[1]] == items;
  }

  /** Writing a document: the crate's page, then the included module's. */
  method RenderTwoPages(c: Resource, m: Resource)
    requires c.kind == "crate" && Segments(c.id) == ["test_crate"]
    requires m.kind == "module" && Segments(m.id) == ["test_crate", "test_module"]
  {
    CratePage(c);
    ModulePage(m);
    var doc := Document(Some(SingleResource(c)), Some([m]));
    assert RenderOrder(doc) == [c, m];
    var written, fault := RenderDocs(doc, ["out"]);
    assert fault.None?;
    assert written[0] == ["out", "doc2"] + ["test_crate", "index.html"];
    assert written[1] == ["out", "doc2"] + ["test_crate", "test_module", "index.html"];
  }

  /** An included resource of a kind without a path scheme stops the run
      after the pages before it. */
  method RenderStopsAtEnum(c: Resource, e: Resource)
    requires c.kind == "crate" && Segments(c.id) == ["test_crate"]
    requires e.kind == "enum" && Segments(e.id) == ["test_crate", "TestEnum"]
  {
    CratePage(c);
    var doc := Document(Some(SingleResource(c)), Some([e]));
    assert RenderOrder(doc) == [c, e];
    var written, fault := RenderDocs(doc, []);
    assert !Supported(RenderOrder(doc)[1].kind);
    assert fault.Some? && fault.value.Unimplemented?;
    assert Supported(RenderOrder(doc)[0].kind);
    assert |written| == 1;
    assert fault == Some(Unimplemented("enum"));
    assert [] + [DocDir] == [DocDir];
    assert written == [[DocDir] + ["test_crate", "index.html"]];
  }
}

=== FILE: wrappers.dfy ===
/** Option and Result, the failure-carrying values the rest of the model returns. */
module Wrappers {

  datatype Option<+T> = None | Some(value: T)

  datatype Result<+T, +E> = Ok(value: T) | Err(error: E)
}
